=== FILE: README.md ===
# movieApp core in Dafny

A Dafny model of the core of movieApp, a Go web application. Users keep
watch lists of movies from a catalog service. They can also ask to be
reminded by e-mail to watch a movie at a chosen time.

The centre of the model is the **reminder queue** (`scheduler.go`):

- `ScheduleList` is a binary min-heap of `ScheduledMovie` entries ordered by `Time`.
- Entries are added by the scheduling handler through `heap.Push`.
- Once a minute, `popBeforeTime(now)` drains every entry due strictly before `now`, and each drained entry is handed to the mailer.

Go's `container/heap` is not part of the repository. Its `up`, `down`,
`Push`, `Pop` and `Init` are modelled here from their documented
algorithm, on top of the `Len`/`Less`/`Swap`/`Push`/`Pop` methods of
`ScheduleList`.

Around the queue, the model covers the sequential helpers:

- pagination, the page query parameter, the id at the end of a URL path, and the "preferred genre" (`util.go`);
- the comma-joined id list and the list-item payload (`client/util.go`);
- account profiles and their three catalog lists (`account/account.go`);
- extraction of the ID token from the login form body (`auth.go`).

Modules, one per source area:

- `Wrappers` holds `Option` and `Result`, for Go's `(value, error)` returns.
- `Strconv` holds `strconv.Atoi` and `strconv.Itoa` for a 64-bit Go `int`, with the round trip `Atoi(Itoa(n)) == n`.
- `ScheduleHeap` holds the entry type, the `ScheduleList` methods and `container/heap`.
- `Scheduler` holds `popBeforeTime`, one tick of `schedule`, and a run of registrations and ticks.
- `Util`, `ClientUtil`, `Accounts` and `Auth` hold the helpers of the files named above.

Modelling choices:

- Timestamps are integers.
- Slices are sequences, and mutation returns the new value.
- The catalog's `CreateList` is an oracle `string -> Result<int, string>`.
- The mailer is an oracle that returns an optional error.
- The "profile" cookie is an `Option<string>`: absent, or its value.
- Go's map iteration order in `preferredGenre` is a parameter: any order that visits every key once.

Draining takes the entries due strictly before the sampled time
(`scheduler.go:59`). Each step pops the root with `heap.Pop`; the first
popped entry that is not due is pushed back with `heap.Push` and stays
queued (`scheduler.go:58`, `66-67`).

## Model

| member | source | states |
|---|---|---|
| ScheduleHeap.Less | scheduler.go:28-31 | entry i is less than entry j exactly when i's time is strictly earlier; equal times are less in neither direction |
| ScheduleHeap.Swap | scheduler.go:33-35 | the two entries trade places, every other position is unchanged, and the multiset of entries is preserved |
| ScheduleHeap.Push | scheduler.go:37-40 | the list grows by one entry at the end, the old entries keep their positions, and the multiset gains exactly that entry |
| ScheduleHeap.Pop | scheduler.go:42-49 | needs a non-empty list (Go indexes `n-1`); the remaining list followed by the returned entry is the original list |
| ScheduleHeap.Up | scheduler.go:66 | sift-up of `container/heap`, with Go's truncating parent index: from a heap broken only at one entry it yields a heap with the same entries |
| ScheduleHeap.Down | scheduler.go:58 | sift-down over the first n entries: restores heap order below the start index and leaves the entries before the start and from n on in place |
| ScheduleHeap.HeapPush | handlers.go:249-252 | `heap.Push` keeps every entry no earlier than its parent and adds exactly the new entry |
| ScheduleHeap.HeapPop | scheduler.go:58 | `heap.Pop` on a non-empty heap returns the root, which no entry precedes, and leaves a heap of exactly the other entries |
| ScheduleHeap.RootIsMinimum | scheduler.go:62-65 | in a heap no entry is due before the root, which is why draining may stop at the first entry that is not due |
| ScheduleHeap.Init | scheduler.go:76-79 | `heap.Init` turns any list into a heap with the same entries |
| Scheduler.DrainStops | scheduler.go:61-67 | once the popped minimum is not due before t, nothing left in the queue (the pushed-back entry included) is due before t |
| Scheduler.PopBeforeTime | scheduler.go:52-71 | returns exactly the entries due strictly before t, in non-decreasing time order; the remaining heap holds exactly the rest, with nothing lost or duplicated; an entry due at t stays queued; an empty heap stays empty and yields nothing |
| Scheduler.SplitIsUnique | scheduler.go:51 | any split of the entries into "due before t" and "not due before t" is the same multiset split, so the drain's result is determined up to tie order |
| Scheduler.Tick | scheduler.go:87-103 | one tick drains exactly the entries due before the sampled time, in time order, and makes one delivery attempt per drained entry, in that order; a failed delivery is only logged, and the remaining queue is a heap of the undrained entries whatever the mailer answers |
| Scheduler.Run | scheduler.go:81-105 | over any series of registrations and ticks the queue stays a heap, and every registered entry is either still queued or was dispatched, exactly once |
| Scheduler.Schedule | scheduler.go:75-106 | `schedule` first runs `heap.Init` on whatever list it holds and then serves the events: the queue ends as a heap, and every entry it started with or was registered is still queued or was dispatched, exactly once |
| Strconv.NatDigits | client/util.go:32 | the decimal image of a natural number is non-empty, all digits, has no leading zero, and reads back as the number |
| Strconv.Itoa | client/util.go:32 | `strconv.Itoa`: a non-empty image that starts with '-' exactly for negative values and is otherwise made of digits |
| Strconv.Atoi | util.go:34 | `strconv.Atoi` succeeds only on a digit string, or a '+' or '-' followed by at least one digit, and then returns exactly their decimal value (negated after '-'), which fits a 64-bit int |
| Strconv.AtoiItoa | util.go:34 | parsing the decimal image of any 64-bit value gives that value back |
| Strconv.AtoiDigits | account/account.go:81 | every non-empty digit string whose value fits a 64-bit int, leading zeros included, parses to that value |
| Strconv.AtoiSigned | account/account.go:81 | a '+' or '-' followed by digits parses to the signed value whenever it fits a 64-bit int, so "-0" is 0 and "+5" is 5 |
| Util.Paginate | util.go:21-30 | the list is kept as is; a previous link exists exactly when the page is after 1 and is then page-1; the next link is page+1 when the page is before the last and 0 otherwise |
| Util.PaginateLinksInRange | util.go:23-28 | for a page in [1, totalPages] the previous link exists exactly off the first page, the next link exactly off the last, and both stay inside [1, totalPages] |
| Util.PaginateRoundTrip | util.go:23-28 | following the next link and then the previous link leads back to the same page, and the other way round |
| Util.GetFirstValue | util.go:34 | `url.Values.Get` returns the first value set for the name and is unaffected by other names; a missing name or one with no values reads as "" |
| Util.PageParam | util.go:33-39 | the page is the parsed parameter when it is a valid decimal int and 1 otherwise |
| Util.PageParamRoundTrip | util.go:33-39 | any page written into the query, 0 and negatives included, is read back unclamped; a missing parameter reads as 1 |
| Util.IdFromPath | util.go:42-45 | a parsed id is a 64-bit value; a URL path no longer than the route fails with a syntax error; a negative id needs a '-' right after the route |
| Util.IdFromPathRoundTrip | util.go:42-45 | a URL path made of the route followed by the decimal image of an id yields that id |
| Util.IdFromPathIgnoresRouteText | util.go:43 | only the route's length is used: the dropped characters are never compared with it |
| Util.Tally | util.go:50-60 | the genre map has a key for exactly the genre ids that occur, and every count is positive |
| Util.TallyCountsOccurrences | util.go:50-60 | each genre's count is the number of times its id occurs in the watch and watched lists together |
| Util.PickAsWritten | util.go:61-68 | the selection loop as written returns its start key or a visited key, and the last visited key when every count exceeds the (never updated) threshold |
| Util.PreferredGenre | util.go:49-69 | 0 when neither list has a genre; otherwise a genre that has a count in the map, namely the key the map iteration visits last |
| Util.MostFrequentGenre | util.go:47-48 | corrected selection: 0 when there is no genre, otherwise a genre whose count no other genre's count exceeds |
| Util.PreferredGenreIgnoresFrequency | util.go:63-66 | with genre 28 counted twice and genre 12 once, an iteration visiting 28 first makes the code return 12 while the corrected selection returns 28 |
| ClientUtil.IntsToString | client/util.go:29-41 | "" for an empty slice; otherwise the decimal images of the values, in order, joined by single commas (the comma written after the last value is removed) |
| ClientUtil.JoinedImages | client/util.go:31-39 | the joined images of a non-empty slice hold exactly len-1 commas, do not end in a comma, and split back on ',' into the images in order |
| ClientUtil.SplitJoin | client/util.go:31-39 | splitting a comma join of comma-free parts on ',' gives the parts back |
| ClientUtil.MarshalItems | client/util.go:19-26 | exactly one item per id, in order, each of media type "movie" carrying that id |
| Accounts.LastError | account/account.go:157-170 | no error exactly when every creation succeeded; otherwise the error of one failed creation |
| Accounts.CreateListIDs | account/account.go:143-172 | succeeds exactly when the three lists base+"WatchList", base+"WatchedList" and base+"SujestionsList" are all created, returning their ids in that order; otherwise one of their errors |
| Accounts.NewProfile | account/account.go:121-140 | refuses at 4 or more profiles and on any list-creation failure, leaving the account unchanged; otherwise appends exactly one profile with the given name and the WatchList, WatchedList and SujestionsList ids of lists named email+name+kind |
| Accounts.New | account/account.go:106-116 | the new account keeps the given details and has 0 or 1 profiles, one exactly when its three lists are created, named after the account |
| Accounts.ProfileLimit | account/account.go:118-124 | adding profiles only through NewProfile never exceeds 4 profiles (or the starting count, if higher) and never alters existing profiles |
| Accounts.NewAccountLimit | account/account.go:13-14 | an account made by New has at most 4 profiles however many more are requested |
| Accounts.ProfileFromRequest | account/account.go:76-89 | fails when the cookie is missing, is not a decimal int, or is at least the number of profiles; otherwise returns the parsed index, negatives included |
| Accounts.ProfileFromRequestRoundTrip | account/account.go:81-88 | a cookie holding the decimal image of any index below the profile count, negative or not, selects that index |
| Accounts.NegativeProfileAccepted | account/account.go:81-88 | the cookie "-1" is accepted as a profile index by every account, and that index selects no profile |
| Accounts.ProfileIndex | account/account.go:76-89 | corrected lookup: succeeds exactly when the cookie holds a decimal int in [0, number of profiles), and returns it |
| Accounts.ProfileIndexRefinesRequest | account/account.go:85-88 | the corrected lookup agrees with ProfileFromRequest whenever it succeeds, and refuses only the negative indexes ProfileFromRequest accepts |
| Accounts.ProfileIndexRoundTrip | account/account.go:81-88 | the decimal image of any existing profile's index selects that profile |
| Auth.TrimPrefix | auth.go:63 | when the body starts with the prefix, the prefix followed by the result is the body; otherwise the body is unchanged |
| Auth.TrimSuffix | auth.go:64 | when the string ends with the suffix, the result followed by the suffix is the string; otherwise it is unchanged |
| Auth.IdTokenFromBody | auth.go:57-66 | the token is a contiguous piece of the body and never longer than it |
| Auth.IdTokenRoundTrip | auth.go:62-65 | `idToken=` + t + `&csrfToken=` yields t for every t, so `idToken=&csrfToken=` yields "" |
| Auth.IdTokenTrimsOnce | auth.go:63 | a doubled `idToken=` prefix is removed only once |
| Auth.IdTokenWithoutPrefix | auth.go:63-64 | a body without the prefix keeps its front and loses only the trailing `&csrfToken=` |

## Left out

- The mutex, the ticker, context cancellation and the per-entry goroutines of `schedule` are not modelled. A tick is one sequential step, and a run is a sequence of lock-serialised registrations and ticks.
- Delivery failures are logged in Go; the model returns the logged error strings instead.
- `time.Time` is replaced by integer timestamps. `Sub` saturation, monotonic clock readings and the `time.Parse` layouts of the handlers are not modelled.
- `heap.Init` is modelled for any list. The server calls it once, on the list it starts with, which is empty or already in heap order: a registration may reach the list before `schedule` runs `heap.Init`.
- Go's `int` is taken to be 64 bits wide. `Atoi` reports a syntax error before a range error, and Go may report them the other way round for long inputs. Which of the two errors is returned is not stated; only that parsing fails.
- Accounts.CreateListIDs: when several creations fail, Go returns whichever error reaches the channel last, which depends on goroutine timing. The contract only promises one of the errors. The body picks the last failure in list order.
- The goroutine fan-out of `createListIDs` is not modelled. The three calls are independent oracle answers.
- `marshalItems` is modelled as the list of items it builds. The JSON encoding and its error result are not modelled.
- `getIDTokenFromBody` is modelled on the body string. The `ReadAll` error path is not modelled.
- Go slices strings by byte (`len(path)` at util.go:43, `s[:len(s)-1]` at client/util.go:38, `strings.TrimPrefix` and `TrimSuffix` at auth.go:63-64); the model slices characters. The results agree because the route, the comma, `idToken=` and `&csrfToken=` are all ASCII, one byte per character.
- `idFromPath` requires the URL path to be at least as long as the route, because Go's slice expression panics on a shorter one.
- `ProfileFromRequest` models the cookie as absent or a value. Go's `-1` returned alongside an error is not modelled.
- `paginate` returns a page holding the list value. The Go version holds a pointer to the same list.
- `FromUserToken` is not modelled. Its claim-map type assertions depend on the token shape and panic on bad input.
- HTTP handlers, templates, cookies and redirects are not modelled; neither are the catalog REST client, the Firebase calls and the SendGrid mailer. These are I/O and foreign libraries.
- `rand.Intn` in `suggestMovie` is not modelled, because it is randomness.

## Findings

| source | as written | input that shows it | evidently intended | confidence | as-written member | corrected member |
|---|---|---|---|---|---|---|
| util.go:61-67 | `mostWatchedVal` is never updated, so every key (all counts are at least 1) replaces `mostWatchedKey`. The result is whichever genre the map iteration visits last. | watch = one movie with genres [28, 12]; watched = one movie with genre [28]; an iteration visiting 28 then 12 returns 12, although 28 occurs twice and 12 once | the most frequent genre, as the doc comment at util.go:47-48 says; that needs `mostWatchedVal = val` next to `mostWatchedKey = key` | not executed; high | Util.PreferredGenre (shown by Util.PreferredGenreIgnoresFrequency) | Util.MostFrequentGenre |
| account/account.go:85-88 | only `p >= len(acc.Profiles)` is rejected, so a negative index parsed from the cookie is returned without error, and the handlers then read `acc.Profiles[id]` (handlers.go:38, 146, 172) | cookie `profile=-1` on an account with any number of profiles | reject `p < 0` as well, so that the returned index always selects a profile | not executed; high | Accounts.ProfileFromRequest (shown by Accounts.NegativeProfileAccepted) | Accounts.ProfileIndex |

=== FILE: account.dfy ===
/** Accounts and their profiles. An account holds at most four profiles;
    each profile owns three catalog lists (to watch, watched, suggestions)
    created when the profile is. The catalog's list creation is an oracle
    `create` that answers a list name with a list id or an error. */
module Accounts {
  import opened Wrappers
  import opened Strconv

  /** The most profiles `NewProfile` lets an account reach. */
  const MaxProfiles: nat := 4

  /** The kinds of list a profile owns, in the order their ids are stored. */
  const ListKinds: seq<string> := ["WatchList", "WatchedList", "SujestionsList"]

  datatype Profile = Profile(name: string, watchListId: int, watchedListId: int, sujestionsListId: int)

  /** An account; the birthday is a timestamp. */
  datatype Account = Account(email: string, name: string, password: string, birthday: int, profiles: seq<Profile>)

  /** The catalog's `CreateList(name)`: the new list's id, or an error. */
  type ListCreator = string -> Result<int, string>

  /** The error `createListIDs` reports, if any: the error of the last
      failed creation, in list order. */
  function LastError(rs: seq<Result<int, string>>): (r: Option<string>)
    ensures r.None? <==> forall i :: 0 <= i < |rs| ==> rs[i].Success?
    ensures r.Some? ==> exists i :: 0 <= i < |rs| && rs[i] == Failure(r.value)
  {
    if |rs| == 0 then None
    else if rs[|rs| - 1].Failure? then Some(rs[|rs| - 1].error)
    else LastError(rs[..|rs| - 1])
  }

  /** `createListIDs(baseName)`: creates the lists `baseName + kind` for the
      three kinds; fails if any creation fails, and otherwise returns the
      three ids in list order. */
  function CreateListIDs(baseName: string, create: ListCreator): (r: Result<seq<int>, string>)
    ensures r.Success? <==> forall k :: 0 <= k < 3 ==> create(baseName + ListKinds[k]).Success?
    ensures r.Success? ==> |r.value| == 3
    ensures r.Success? ==> forall k :: 0 <= k < 3 ==> r.value[k] == create(baseName + ListKinds[k]).value
    ensures r.Failure? ==> exists k :: 0 <= k < 3 && create(baseName + ListKinds[k]) == Failure(r.error)
  {
    var rs := seq(3, k requires 0 <= k < 3 => create(baseName + ListKinds[k]));
    match LastError(rs)
    case Some(err) => Failure(err)
    case None => Success([rs[0].value, rs[1].value, rs[2].value])
  }

  /** `Account.NewProfile(name)`: refuses when the account already has
      `MaxProfiles` profiles, otherwise creates the profile's three lists
      named after the account's email and the profile name, and appends
      the profile. Returns the account and the error, if any; on error the
      account is unchanged. */
  function NewProfile(acc: Account, name: string, create: ListCreator): (r: (Account, Option<string>))
    ensures |acc.profiles| >= MaxProfiles ==> r == (acc, Some("limit of profiles reached"))
    ensures r.1.Some? ==> r.0 == acc
    ensures r.1.None? <==>
      |acc.profiles| < MaxProfiles &&
      forall k :: 0 <= k < 3 ==> create(acc.email + name + ListKinds[k]).Success?
    ensures r.1.None? ==>
      r.0 == acc.(profiles := acc.profiles + [Profile(name,
                                                      create(acc.email + name + ListKinds[0]).value,
                                                      create(acc.email + name + ListKinds[1]).value,
                                                      create(acc.email + name + ListKinds[2]).value)])
  {
    if |acc.profiles| >= MaxProfiles then (acc, Some("limit of profiles reached"))
    else
      match CreateListIDs(acc.email + name, create)
      case Failure(err) => (acc, Some(err))
      case Success(ids) =>
        var p := Profile(name, ids[0], ids[1], ids[2]);
        (acc.(profiles := acc.profiles + [p]), None)
  }

  /** `New`: an account with no profile, then one `NewProfile` named after
      the account whose error is ignored. */
  function New(email: string, password: string, name: string, birthday: int, create: ListCreator): (acc: Account)
    ensures acc.email == email && acc.name == name && acc.password == password && acc.birthday == birthday
    ensures |acc.profiles| <= 1
    ensures |acc.profiles| == 1 <==> forall k :: 0 <= k < 3 ==> create(email + name + ListKinds[k]).Success?
    ensures |acc.profiles| == 1 ==> acc.profiles[0].name == name
  {
    NewProfile(Account(email, name, password, birthday, []), name, create).0
  }

  /** The account after a series of `NewProfile` calls, errors ignored. */
  function AddProfiles(acc: Account, names: seq<string>, create: ListCreator): Account
    decreases |names|
  {
    if |names| == 0 then acc
    else AddProfiles(NewProfile(acc, names[0], create).0, names[1..], create)
  }

  /** Creating profiles only through `NewProfile` never takes an account
      past `MaxProfiles`, nor past the count it started with, and never
      touches the profiles already there. */
  lemma {:induction false} ProfileLimit(acc: Account, names: seq<string>, create: ListCreator)
    ensures var after := AddProfiles(acc, names, create);
      && |after.profiles| <= (if |acc.profiles| > MaxProfiles then |acc.profiles| else MaxProfiles)
      && acc.profiles <= after.profiles
      && after.email == acc.email
    decreases |names|
  {
    if |names| > 0 {
      ProfileLimit(NewProfile(acc, names[0], create).0, names[1..], create);
    }
  }

  /** An account made by `New` keeps at most four profiles however many
      more are requested. */
  lemma NewAccountLimit(email: string, password: string, name: string, birthday: int,
                        names: seq<string>, create: ListCreator)
    ensures |AddProfiles(New(email, password, name, birthday, create), names, create).profiles| <= MaxProfiles
  {
    ProfileLimit(New(email, password, name, birthday, create), names, create);
  }

  /** `ProfileFromRequest`: the index stored in the "profile" cookie. It
      fails when the cookie is missing, is not a decimal `int`, or is not
      below the number of profiles; negative indexes are not rejected. */
  function ProfileFromRequest(acc: Account, cookie: Option<string>): (r: Result<int, string>)
    ensures cookie.None? ==> r.Failure?
    ensures r.Success? <==>
      cookie.Some? && Atoi(cookie.value).Success? && Atoi(cookie.value).value < |acc.profiles|
    ensures r.Success? ==> r.value == Atoi(cookie.value).value
  {
    match cookie
    case None => Failure("http: named cookie not present")
    case Some(value) =>
      match Atoi(value)
      case Failure(_) => Failure("invalid syntax")
      case Success(p) =>
        if p >= |acc.profiles| then Failure("invalid profile") else Success(p)
  }

  /** A cookie holding the decimal image of an index below the number of
      profiles, negative ones included, selects that index. */
  lemma ProfileFromRequestRoundTrip(acc: Account, p: int)
    requires InInt64(p) && p < |acc.profiles|
    ensures ProfileFromRequest(acc, Some(Itoa(p))) == Success(p)
  {
    AtoiItoa(p);
  }

  /** A cookie holding "-1" is accepted as a profile index by every account,
      although no profile has a negative index: the handlers that go on to
      read `acc.Profiles[id]` would index out of range. */
  lemma NegativeProfileAccepted(acc: Account)
    ensures ProfileFromRequest(acc, Some("-1")) == Success(-1)
    ensures !(0 <= ProfileFromRequest(acc, Some("-1")).value < |acc.profiles|)
  {
    assert Itoa(-1) == "-1";
    AtoiItoa(-1);
  }

  /** The profile lookup with the lower bound checked too: it succeeds
      exactly when the cookie holds a decimal `int` that indexes a profile,
      and then returns that index. */
  function ProfileIndex(acc: Account, cookie: Option<string>): (r: Result<int, string>)
    ensures r.Success? <==>
      cookie.Some? && Atoi(cookie.value).Success? && 0 <= Atoi(cookie.value).value < |acc.profiles|
    ensures r.Success? ==> r.value == Atoi(cookie.value).value && 0 <= r.value < |acc.profiles|
  {
    match ProfileFromRequest(acc, cookie)
    case Failure(e) => Failure(e)
    case Success(p) => if p < 0 then Failure("invalid profile") else Success(p)
  }

  /** The checked lookup agrees with `ProfileFromRequest` on every
      non-negative index and refuses exactly the negative ones it lets
      through. */
  lemma ProfileIndexRefinesRequest(acc: Account, cookie: Option<string>)
    ensures ProfileIndex(acc, cookie).Success? ==> ProfileFromRequest(acc, cookie) == ProfileIndex(acc, cookie)
    ensures ProfileFromRequest(acc, cookie).Success? && ProfileIndex(acc, cookie).Failure? ==>
      ProfileFromRequest(acc, cookie).value < 0
  {
  }

  /** A cookie holding the decimal image of any existing profile's index
      selects that profile. */
  lemma ProfileIndexRoundTrip(acc: Account, p: int)
    requires InInt64(p) && 0 <= p < |acc.profiles|
    ensures ProfileIndex(acc, Some(Itoa(p))) == Success(p)
  {
    AtoiItoa(p);
  }
}

=== FILE: auth.dfy ===
/** The ID token carried in the body of the login form post, which arrives
    as `idToken=<token>&csrfToken=`. Reading the body is not modelled; the
    body is given as a string. */
module Auth {

  const TokenPrefix: string := "idToken="
  const TokenSuffix: string := "&csrfToken="

  /** `strings.TrimPrefix`: drops `prefix` once from the front, if there. */
  function TrimPrefix(s: string, prefix: string): (r: string)
    ensures prefix <= s ==> prefix + r == s
    ensures !(prefix <= s) ==> r == s
  {
    if prefix <= s then s[|prefix|..] else s
  }

  /** `strings.TrimSuffix`: drops `suffix` once from the end, if there. */
  function TrimSuffix(s: string, suffix: string): (r: string)
    ensures |suffix| <= |s| && s[|s| - |suffix|..] == suffix ==> r + suffix == s
    ensures !(|suffix| <= |s| && s[|s| - |suffix|..] == suffix) ==> r == s
  {
    if |suffix| <= |s| && s[|s| - |suffix|..] == suffix then s[..|s| - |suffix|] else s
  }

  /** The string part of `getIDTokenFromBody`: the prefix is trimmed first,
      then the suffix. The token is a contiguous piece of the body. */
  function IdTokenFromBody(body: string): (token: string)
    ensures |token| <= |body|
    ensures exists i, j :: 0 <= i <= j <= |body| && token == body[i..j]
  {
    var afterPrefix := TrimPrefix(body, TokenPrefix);
    var i := |body| - |afterPrefix|;
    assert afterPrefix == body[i..];
    var token := TrimSuffix(afterPrefix, TokenSuffix);
    assert token == body[i..i + |token|];
    token
  }

  /** A body built from any token gives that token back, so an empty token
      yields "" from `idToken=&csrfToken=`. */
  lemma IdTokenRoundTrip(token: string)
    ensures IdTokenFromBody(TokenPrefix + token + TokenSuffix) == token
  {
    var body := TokenPrefix + token + TokenSuffix;
    assert TokenPrefix <= body;
    assert TrimPrefix(body, TokenPrefix) == token + TokenSuffix;
    var s := token + TokenSuffix;
    assert s[|s| - |TokenSuffix|..] == TokenSuffix;
    assert s[..|s| - |TokenSuffix|] == token;
  }

  /** Each affix is removed at most once: a doubled prefix leaves one. */
  lemma IdTokenTrimsOnce(token: string)
    ensures IdTokenFromBody(TokenPrefix + TokenPrefix + token + TokenSuffix) == TokenPrefix + token
  {
    IdTokenRoundTrip(TokenPrefix + token);
    assert TokenPrefix + TokenPrefix + token + TokenSuffix == TokenPrefix + (TokenPrefix + token) + TokenSuffix;
  }

  /** A body without the prefix keeps its front: only the suffix goes. */
  lemma IdTokenWithoutPrefix(rest: string)
    requires !(TokenPrefix <= rest + TokenSuffix)
    ensures IdTokenFromBody(rest + TokenSuffix) == rest
  {
    var s := rest + TokenSuffix;
    assert s[|s| - |TokenSuffix|..] == TokenSuffix;
    assert s[..|s| - |TokenSuffix|] == rest;
  }
}

=== FILE: client_util.dfy ===
/** Helpers of the catalog client: the comma-separated id list put into a
    query string, and the items of a list-change request body. The JSON
    encoding of the body is not modelled, only the items it encodes. */
module ClientUtil {
  import opened Strconv

  /** `s` with every element rendered by `strconv.Itoa`. */
  function Images(s: seq<int>): (r: seq<string>)
    ensures |r| == |s|
    ensures forall i :: 0 <= i < |s| ==> r[i] == Itoa(s[i])
  {
    if |s| == 0 then [] else [Itoa(s[0])] + Images(s[1..])
  }

  /** The parts separated by single commas; the join of no parts is "". */
  function Join(parts: seq<string>): string {
    if |parts| == 0 then ""
    else if |parts| == 1 then parts[0]
    else parts[0] + "," + Join(parts[1..])
  }

  /** `strings.Split(s, ",")`: the pieces between commas, so one more piece
      than there are commas ("" splits into one empty piece). */
  function Split(s: string): (pieces: seq<string>)
    ensures |pieces| == Count(s, ',') + 1
  {
    if |s| == 0 then [""]
    else
      var rest := Split(s[1..]);
      if s[0] == ',' then [""] + rest
      else [[s[0]] + rest[0]] + rest[1..]
  }

  /** How many times `c` occurs in `s`. */
  function Count(s: string, c: char): nat {
    if |s| == 0 then 0 else (if s[0] == c then 1 else 0) + Count(s[1..], c)
  }

  /** Splitting `a,b` where `a` has no comma peels `a` off the front. */
  lemma {:induction false} SplitFront(a: string, b: string)
    requires ',' !in a
    ensures Split(a + "," + b) == [a] + Split(b)
    decreases |a|
  {
    if |a| == 0 {
      assert a + "," + b == [','] + b;
      assert ([','] + b)[1..] == b;
    } else {
      SplitFront(a[1..], b);
      assert (a + "," + b)[1..] == a[1..] + "," + b;
      assert [a[0]] + a[1..] == a;
    }
  }

  /** Splitting a join gives the parts back when no part holds a comma. */
  lemma {:induction false} SplitJoin(parts: seq<string>)
    requires |parts| > 0
    requires forall i :: 0 <= i < |parts| ==> ',' !in parts[i]
    ensures Split(Join(parts)) == parts
    decreases |parts|
  {
    if |parts| == 1 {
      SplitNoComma(parts[0]);
    } else {
      SplitJoin(parts[1..]);
      SplitFront(parts[0], Join(parts[1..]));
      assert parts == [parts[0]] + parts[1..];
    }
  }

  /** A string without commas splits into itself. */
  lemma {:induction false} SplitNoComma(s: string)
    requires ',' !in s
    ensures Split(s) == [s]
    decreases |s|
  {
    if |s| > 0 {
      SplitNoComma(s[1..]);
      assert [s[0]] + s[1..] == s;
    }
  }

  /** A decimal image holds no comma. */
  lemma ItoaHasNoComma(n: int)
    ensures ',' !in Itoa(n)
  {
  }

  /** The parts written one after another, each followed by a comma: what
      the buffer of `intsToString` holds before the last comma is cut. */
  function Terminated(parts: seq<string>): string {
    if |parts| == 0 then "" else Terminated(parts[..|parts| - 1]) + parts[|parts| - 1] + ","
  }

  /** Cutting the final comma of the terminated form leaves the join. */
  lemma {:induction false} TerminatedIsJoinComma(parts: seq<string>)
    requires |parts| > 0
    ensures Terminated(parts) == Join(parts) + ","
    decreases |parts|
  {
    if |parts| > 1 {
      var front := parts[..|parts| - 1];
      TerminatedIsJoinComma(front);
      JoinSnoc(front, parts[|parts| - 1]);
      assert front + [parts[|parts| - 1]] == parts;
    }
  }

  /** Appending a part to a non-empty join adds a comma and the part. */
  lemma {:induction false} JoinSnoc(parts: seq<string>, p: string)
    requires |parts| > 0
    ensures Join(parts + [p]) == Join(parts) + "," + p
    decreases |parts|
  {
    if |parts| > 1 {
      JoinSnoc(parts[1..], p);
      assert (parts + [p])[1..] == parts[1..] + [p];
    }
  }

  /** A join of non-empty, comma-free parts is non-empty and does not end
      in a comma. */
  lemma {:induction false} JoinEnd(parts: seq<string>)
    requires |parts| > 0
    requires forall i :: 0 <= i < |parts| ==> |parts[i]| > 0 && ',' !in parts[i]
    ensures |Join(parts)| > 0 && Join(parts)[|Join(parts)| - 1] != ','
    decreases |parts|
  {
    if |parts| == 1 {
      assert parts[0][|parts[0]| - 1] in parts[0];
    } else {
      JoinEnd(parts[1..]);
    }
  }

  /** The comma-joined images of a non-empty slice hold exactly one comma
      fewer than there are values, do not end in a comma, and split on ','
      back into the images, in order. */
  lemma JoinedImages(slice: seq<int>)
    requires |slice| > 0
    ensures Count(Join(Images(slice)), ',') == |slice| - 1
    ensures Split(Join(Images(slice))) == Images(slice)
    ensures |Join(Images(slice))| > 0 && Join(Images(slice))[|Join(Images(slice))| - 1] != ','
  {
    var parts := Images(slice);
    forall i | 0 <= i < |parts|
      ensures |parts[i]| > 0 && ',' !in parts[i]
    {
      ItoaHasNoComma(slice[i]);
    }
    SplitJoin(parts);
    JoinEnd(parts);
  }

  /** One more value writes its image and a comma after the buffer. */
  lemma TerminatedStep(slice: seq<int>, i: nat)
    requires i < |slice|
    ensures Terminated(Images(slice[..i + 1])) == Terminated(Images(slice[..i])) + Itoa(slice[i]) + ","
  {
    assert Images(slice[..i + 1]) == Images(slice[..i]) + [Itoa(slice[i])];
  }

  /** Cutting the last comma of the full buffer gives the joined images. */
  lemma TrimmedBuffer(slice: seq<int>)
    requires |slice| > 0
    ensures var buf := Terminated(Images(slice));
      |buf| > 0 && buf[..|buf| - 1] == Join(Images(slice))
  {
    TerminatedIsJoinComma(Images(slice));
  }

  /** `intsToString`: writes every value's decimal image followed by a
      comma, then removes the last comma when the slice is not empty. */
  method IntsToString(slice: seq<int>) returns (s: string)
    ensures s == Join(Images(slice))
  {
    var buf := "";
    var i := 0;
    while i < |slice|
      invariant i <= |slice|
      invariant buf == Terminated(Images(slice[..i]))
    {
      TerminatedStep(slice, i);
      buf := buf + Itoa(slice[i]) + ",";
      i := i + 1;
    }
    assert slice[..|slice|] == slice;
    s := buf;
    if |slice| > 0 {
      TrimmedBuffer(slice);
      s := s[..|s| - 1];
    }
  }

  /** One item of a list-change request body. */
  datatype ListItem = ListItem(mediaType: string, mediaId: int)

  /** The items `marshalItems` puts into the request body: one movie item
      per id, in order. */
  method MarshalItems(items: seq<int>) returns (body: seq<ListItem>)
    ensures |body| == |items|
    ensures forall i :: 0 <= i < |body| ==> body[i] == ListItem("movie", items[i])
  {
    body := [];
    var i := 0;
    while i < |items|
      invariant i <= |items| && |body| == i
      invariant forall k :: 0 <= k < i ==> body[k] == ListItem("movie", items[k])
    {
      body := body + [ListItem("movie", items[i])];
      i := i + 1;
    }
  }
}

=== FILE: schedule_heap.dfy ===
/** The reminder queue: `ScheduleList` is a slice of `ScheduledMovie`
    entries kept as a binary min-heap ordered by `Time`, driven through Go's
    `container/heap`. Timestamps are integers; the heap is a sequence and
    every operation returns the new sequence instead of mutating a slice. */
module ScheduleHeap {

  /** One reminder: when to send it, which movie, and to whom. */
  datatype ScheduledMovie = ScheduledMovie(time: int, movieId: int, userName: string, email: string)

  type ScheduleList = seq<ScheduledMovie>

  /** Parent index used by `container/heap`: Go computes `(j-1)/2`, which
      truncates toward zero, so the root is its own parent. Dafny's `/` is
      Euclidean (`(-1)/2 == -1`), hence the explicit case for the root. */
  function Parent(k: nat): (p: nat)
    ensures k == 0 ==> p == 0
    ensures k > 0 ==> 2 * p + 1 <= k <= 2 * p + 2
  {
    if k == 0 then 0 else (k - 1) / 2
  }

  /** Min-heap order: no entry is due before its parent. */
  ghost predicate IsHeap(sl: ScheduleList) {
    forall k :: 0 < k < |sl| ==> sl[Parent(k)].time <= sl[k].time
  }

  /** `Less(i, j)`: entry `i` is due strictly before entry `j`. Go computes
      `t1.Sub(t2) < 0`; equal times are not less in either direction. */
  function Less(sl: ScheduleList, i: nat, j: nat): (b: bool)
    requires i < |sl| && j < |sl|
    ensures b <==> sl[i].time < sl[j].time
  {
    sl[i].time - sl[j].time < 0
  }

  /** `Swap(i, j)`: exchanges two entries and leaves the rest in place. */
  function Swap(sl: ScheduleList, i: nat, j: nat): (r: ScheduleList)
    requires i < |sl| && j < |sl|
    ensures |r| == |sl|
    ensures r[i] == sl[j] && r[j] == sl[i]
    ensures forall k :: 0 <= k < |sl| && k != i && k != j ==> r[k] == sl[k]
    ensures multiset(r) == multiset(sl)
  {
    sl[i := sl[j]][j := sl[i]]
  }

  /** The `Push` method of `ScheduleList`: appends one entry at the end. */
  function Push(sl: ScheduleList, x: ScheduledMovie): (r: ScheduleList)
    ensures |r| == |sl| + 1
    ensures r[..|sl|] == sl && r[|sl|] == x
    ensures multiset(r) == multiset(sl) + multiset{x}
  {
    sl + [x]
  }

  /** The `Pop` method of `ScheduleList`: removes and returns the last entry.
      Go indexes `old[n-1]`, which panics on an empty slice. */
  function Pop(sl: ScheduleList): (r: (ScheduleList, ScheduledMovie))
    requires |sl| > 0
    ensures r.0 + [r.1] == sl
    ensures multiset(r.0) + multiset{r.1} == multiset(sl)
  {
    (sl[..|sl| - 1], sl[|sl| - 1])
  }

  /** Heap order holds on every edge except the one entering `j`, and `j`'s
      parent is no later than `j`'s children: the state sift-up works on. */
  ghost predicate HeapExceptUp(sl: ScheduleList, j: nat) {
    && (forall k :: 0 < k < |sl| && k != j ==> sl[Parent(k)].time <= sl[k].time)
    && (0 < j < |sl| ==>
          forall c :: 0 < c < |sl| && Parent(c) == j ==> sl[Parent(j)].time <= sl[c].time)
  }

  /** Heap order holds on the edges inside `[0, n)` leaving parents at or
      after `i0`, except those leaving `i`; and when `i` lies below `i0`,
      `i`'s parent is no later than `i`'s children: the state sift-down
      works on. */
  ghost predicate HeapExceptDown(sl: ScheduleList, i0: nat, i: nat, n: nat)
    requires n <= |sl|
  {
    && (forall k :: 0 < k < n && i0 <= Parent(k) && Parent(k) != i ==> sl[Parent(k)].time <= sl[k].time)
    && (i0 < i ==>
          forall c :: 0 < c < n && Parent(c) == i ==> sl[Parent(i)].time <= sl[c].time)
  }

  /** `up(h, j)` of `container/heap`: moves entry `j` toward the root while it
      is due strictly before its parent. */
  method Up(h: ScheduleList, j0: nat) returns (r: ScheduleList)
    requires j0 < |h|
    requires HeapExceptUp(h, j0)
    ensures |r| == |h|
    ensures IsHeap(r)
    ensures multiset(r) == multiset(h)
  {
    r := h;
    var j: nat := j0;
    while true
      invariant |r| == |h| && j < |r|
      invariant HeapExceptUp(r, j)
      invariant multiset(r) == multiset(h)
      decreases j
    {
      var i := Parent(j);
      if i == j || !Less(r, j, i) {
        break;
      }
      UpStep(r, j);
      r := Swap(r, i, j);
      j := i;
    }
  }

  /** One swap of sift-up re-establishes `HeapExceptUp` one level higher. */
  lemma UpStep(sl: ScheduleList, j: nat)
    requires 0 < j < |sl|
    requires HeapExceptUp(sl, j)
    requires sl[j].time < sl[Parent(j)].time
    ensures HeapExceptUp(Swap(sl, Parent(j), j), Parent(j))
  {
    var p := Parent(j);
    var r := Swap(sl, p, j);
    forall k | 0 < k < |r| && k != p
      ensures r[Parent(k)].time <= r[k].time
    {
      if k == j {
      } else if Parent(k) == j {
        assert r[k] == sl[k];
      } else if Parent(k) == p {
        assert r[k] == sl[k];
      } else if Parent(k) == k {
      } else {
        assert r[k] == sl[k];
      }
    }
    if 0 < p {
      forall c | 0 < c < |r| && Parent(c) == p
        ensures r[Parent(p)].time <= r[c].time
      {
        assert sl[Parent(p)].time <= sl[p].time;
      }
    }
  }

  /** `down(h, i0, n)` of `container/heap`: moves entry `i0` toward the
      leaves of the first `n` entries while a child is due strictly before
      it, always swapping with the earlier child (the left one on a tie). */
  method Down(h: ScheduleList, i0: nat, n: nat) returns (r: ScheduleList)
    requires i0 <= n <= |h|
    requires HeapExceptDown(h, i0, i0, n)
    ensures |r| == |h|
    ensures forall k :: 0 < k < n && i0 <= Parent(k) ==> r[Parent(k)].time <= r[k].time
    ensures forall k :: 0 <= k < i0 || n <= k < |h| ==> r[k] == h[k]
    ensures multiset(r) == multiset(h)
  {
    r := h;
    var i: nat := i0;
    while true
      invariant |r| == |h| && i0 <= i && (i == i0 || i < n)
      invariant HeapExceptDown(r, i0, i, n)
      invariant forall k :: 0 <= k < i0 || n <= k < |h| ==> r[k] == h[k]
      invariant multiset(r) == multiset(h)
      decreases n - i
    {
      var j1 := 2 * i + 1;
      if j1 >= n {
        NoChildren(r, i0, i, n);
        break;
      }
      var j := j1;
      var j2 := j1 + 1;
      if j2 < n && Less(r, j2, j1) {
        j := j2;
      }
      if !Less(r, j, i) {
        SmallerChildNotEarlier(r, i0, i, j, n);
        break;
      }
      DownStep(r, i0, i, j, n);
      r := Swap(r, i, j);
      i := j;
    }
  }

  /** The children of `i` are exactly `2i+1` and `2i+2`. */
  lemma ChildrenOf(c: nat, i: nat)
    requires 0 < c
    ensures Parent(c) == i <==> c == 2 * i + 1 || c == 2 * i + 2
  {
  }

  /** Sift-down stops at a node with no child inside `[0, n)`. */
  lemma NoChildren(sl: ScheduleList, i0: nat, i: nat, n: nat)
    requires n <= |sl| && 2 * i + 1 >= n
    requires HeapExceptDown(sl, i0, i, n)
    ensures forall k :: 0 < k < n && i0 <= Parent(k) ==> sl[Parent(k)].time <= sl[k].time
  {
    forall k | 0 < k < n && i0 <= Parent(k)
      ensures sl[Parent(k)].time <= sl[k].time
    {
      ChildrenOf(k, i);
    }
  }

  /** Sift-down stops when the earlier child is not due before the node. */
  lemma SmallerChildNotEarlier(sl: ScheduleList, i0: nat, i: nat, j: nat, n: nat)
    requires n <= |sl| && i < n && j < n
    requires j == 2 * i + 1 || j == 2 * i + 2
    requires 2 * i + 2 < n ==> sl[j].time <= sl[2 * i + 1].time && sl[j].time <= sl[2 * i + 2].time
    requires sl[i].time <= sl[j].time
    requires HeapExceptDown(sl, i0, i, n)
    ensures forall k :: 0 < k < n && i0 <= Parent(k) ==> sl[Parent(k)].time <= sl[k].time
  {
    forall k | 0 < k < n && i0 <= Parent(k)
      ensures sl[Parent(k)].time <= sl[k].time
    {
      ChildrenOf(k, i);
    }
  }

  /** One swap of sift-down re-establishes `HeapExceptDown` one level lower. */
  lemma DownStep(sl: ScheduleList, i0: nat, i: nat, j: nat, n: nat)
    requires n <= |sl| && i0 <= i && j < n
    requires j == 2 * i + 1 || j == 2 * i + 2
    requires 2 * i + 2 < n ==> sl[j].time <= sl[2 * i + 1].time && sl[j].time <= sl[2 * i + 2].time
    requires sl[j].time < sl[i].time
    requires HeapExceptDown(sl, i0, i, n)
    ensures HeapExceptDown(Swap(sl, i, j), i0, j, n)
  {
    var r := Swap(sl, i, j);
    ChildrenOf(j, i);
    assert Parent(j) == i;
    forall k | 0 < k < n && i0 <= Parent(k) && Parent(k) != j
      ensures r[Parent(k)].time <= r[k].time
    {
      ChildrenOf(k, i);
      if Parent(k) == i {
        if k != j {
          assert r[k] == sl[k];
        }
      } else if k == i {
        assert sl[Parent(i)].time <= sl[j].time;
      } else {
        assert r[k] == sl[k];
        assert r[Parent(k)] == sl[Parent(k)];
      }
    }
    forall c | 0 < c < n && Parent(c) == j
      ensures r[Parent(j)].time <= r[c].time
    {
      ChildrenOf(c, j);
      assert r[c] == sl[c];
    }
  }

  /** `heap.Push`: append with the `Push` method, then sift the new entry up. */
  method HeapPush(h: ScheduleList, x: ScheduledMovie) returns (r: ScheduleList)
    requires IsHeap(h)
    ensures IsHeap(r)
    ensures |r| == |h| + 1
    ensures multiset(r) == multiset(h) + multiset{x}
  {
    var s := Push(h, x);
    assert HeapExceptUp(s, |h|) by {
      forall k | 0 < k < |s| && k != |h|
        ensures s[Parent(k)].time <= s[k].time
      {
        assert s[k] == h[k] && s[Parent(k)] == h[Parent(k)];
      }
    }
    r := Up(s, |h|);
  }

  /** In a heap no entry is due before the root. */
  lemma {:induction false} RootIsMinimum(h: ScheduleList, k: nat)
    requires IsHeap(h) && k < |h|
    ensures h[0].time <= h[k].time
    decreases k
  {
    if k > 0 {
      RootIsMinimum(h, Parent(k));
    }
  }

  /** `heap.Pop`: swap the root with the last entry, sift the new root down
      over the first `n-1` entries, then remove the last entry with the
      `Pop` method. It returns the earliest entry of the heap. An empty heap
      makes Go index out of range. */
  method HeapPop(h: ScheduleList) returns (r: ScheduleList, x: ScheduledMovie)
    requires |h| > 0 && IsHeap(h)
    ensures IsHeap(r)
    ensures |r| == |h| - 1
    ensures x == h[0]
    ensures forall e :: e in h ==> x.time <= e.time
    ensures multiset(r) + multiset{x} == multiset(h)
  {
    var n := |h| - 1;
    var s := Swap(h, 0, n);
    assert HeapExceptDown(s, 0, 0, n) by {
      forall k | 0 < k < n && Parent(k) != 0
        ensures s[Parent(k)].time <= s[k].time
      {
        assert s[k] == h[k] && s[Parent(k)] == h[Parent(k)];
      }
    }
    s := Down(s, 0, n);
    r, x := Pop(s).0, Pop(s).1;
    forall e | e in h
      ensures x.time <= e.time
    {
      var k :| 0 <= k < |h| && h[k] == e;
      RootIsMinimum(h, k);
    }
  }

  /** `heap.Init`: sift down every internal node, last one first, which
      turns any sequence into a heap. */
  method Init(h: ScheduleList) returns (r: ScheduleList)
    ensures IsHeap(r)
    ensures multiset(r) == multiset(h)
  {
    var n := |h|;
    r := h;
    var i: int := n / 2 - 1;
    while i >= 0
      invariant -1 <= i < n && |r| == n
      invariant forall k :: 0 < k < n && i < Parent(k) ==> r[Parent(k)].time <= r[k].time
      invariant multiset(r) == multiset(h)
      decreases i
    {
      r := Down(r, i, n);
      i := i - 1;
    }
  }
}

=== FILE: scheduler.dfy ===
/** The reminder scheduler built on the heap: `popBeforeTime` drains the
    entries due strictly before a time, and one tick of `schedule` drains at
    the sampled time and hands each drained entry to the mailer once. The
    mutex, the ticker, cancellation and the per-entry goroutines are not
    modelled: a tick is one sequential step. */
module Scheduler {
  import opened Wrappers
  import opened ScheduleHeap

  /** The entries of `h` due strictly before `t`, in their order in `h`. */
  function Before(h: ScheduleList, t: int): (r: ScheduleList)
    ensures forall e :: e in r ==> e in h && e.time < t
  {
    if |h| == 0 then []
    else if h[0].time < t then [h[0]] + Before(h[1..], t)
    else Before(h[1..], t)
  }

  /** The entries of `h` not due before `t`, in their order in `h`. */
  function NotBefore(h: ScheduleList, t: int): (r: ScheduleList)
    ensures forall e :: e in r ==> e in h && t <= e.time
  {
    if |h| == 0 then []
    else if h[0].time < t then NotBefore(h[1..], t)
    else [h[0]] + NotBefore(h[1..], t)
  }

  /** `Before` and `NotBefore` split `h` with nothing lost or repeated. */
  lemma {:induction false} BeforeNotBeforePartition(h: ScheduleList, t: int)
    ensures multiset(Before(h, t)) + multiset(NotBefore(h, t)) == multiset(h)
  {
    if |h| > 0 {
      BeforeNotBeforePartition(h[1..], t);
      assert h == [h[0]] + h[1..];
    }
  }

  /** Any split of `h` into entries due before `t` and entries not due
      before `t` is, up to order, the split `Before`/`NotBefore`. */
  lemma SplitIsUnique(h: ScheduleList, t: int, a: ScheduleList, b: ScheduleList)
    requires multiset(a) + multiset(b) == multiset(h)
    requires forall e :: e in a ==> e.time < t
    requires forall e :: e in b ==> t <= e.time
    ensures multiset(a) == multiset(Before(h, t))
    ensures multiset(b) == multiset(NotBefore(h, t))
  {
    BeforeNotBeforePartition(h, t);
    var x, y := multiset(Before(h, t)), multiset(NotBefore(h, t));
    forall e
      ensures multiset(a)[e] == x[e] && multiset(b)[e] == y[e]
    {
      assert multiset(h)[e] == multiset(a)[e] + multiset(b)[e] == x[e] + y[e];
      if e.time < t {
        assert e !in b && e !in NotBefore(h, t);
        assert multiset(b)[e] == 0 && y[e] == 0;
      } else {
        assert e !in a && e !in Before(h, t);
        assert multiset(a)[e] == 0 && x[e] == 0;
      }
    }
  }

  /** Entries in non-decreasing time order. */
  ghost predicate Sorted(s: ScheduleList) {
    forall i, j :: 0 <= i < j < |s| ==> s[i].time <= s[j].time
  }

  /** What holds after every round of the drain loop: the queue is still a
      heap, drained and queued entries together are the original ones, every
      drained entry was due before `t`, in order, and none is later than
      anything still queued. */
  ghost predicate DrainInvariant(h: ScheduleList, t: int, out: ScheduleList, r: ScheduleList) {
    && IsHeap(r)
    && multiset(out) + multiset(r) == multiset(h)
    && (forall e :: e in out ==> e.time < t)
    && Sorted(out)
    && (forall a, b :: a in out && b in r ==> a.time <= b.time)
  }

  /** A popped entry due before `t` extends the drained sequence. */
  lemma DrainTakes(h: ScheduleList, t: int, out: ScheduleList, r: ScheduleList,
                   rest: ScheduleList, x: ScheduledMovie)
    requires DrainInvariant(h, t, out, r)
    requires IsHeap(rest) && multiset(rest) + multiset{x} == multiset(r)
    requires x in r && forall e :: e in r ==> x.time <= e.time
    requires x.time < t
    ensures DrainInvariant(h, t, out + [x], rest)
  {
    var out' := out + [x];
    forall a, b | a in out' && b in rest
      ensures a.time <= b.time
    {
      assert b in multiset(rest);
      assert b in multiset(r);
    }
    forall i, j | 0 <= i < j < |out'|
      ensures out'[i].time <= out'[j].time
    {
      if j == |out|  {
        assert out'[i] in out;
      }
    }
    assert multiset(out') == multiset(out) + multiset{x};
  }

  /** When the popped entry is not due before `t`, nothing left is. */
  lemma DrainStops(r: ScheduleList, rest: ScheduleList, x: ScheduledMovie, t: int, r': ScheduleList)
    requires multiset(rest) + multiset{x} == multiset(r)
    requires forall e :: e in r ==> x.time <= e.time
    requires t <= x.time
    requires multiset(r') == multiset(rest) + multiset{x}
    ensures forall e :: e in r' ==> t <= e.time
  {
    forall e | e in r'
      ensures t <= e.time
    {
      assert e in multiset(r');
      assert e in multiset(r);
    }
  }

  /** `popBeforeTime(t)`: repeatedly `heap.Pop`s the earliest entry; if it is
      due strictly before `t` it is kept, otherwise it is `heap.Push`ed back
      and draining stops, since no remaining entry can be earlier. Returns
      the drained entries and the heap that remains. */
  method PopBeforeTime(h: ScheduleList, t: int) returns (out: ScheduleList, r: ScheduleList)
    requires IsHeap(h)
    ensures IsHeap(r)
    ensures multiset(out) + multiset(r) == multiset(h)
    ensures multiset(out) == multiset(Before(h, t))
    ensures multiset(r) == multiset(NotBefore(h, t))
    ensures Sorted(out)
    ensures forall e :: e in h && e.time == t ==> e in r && e !in out
    ensures |h| == 0 ==> out == [] && r == []
  {
    out := [];
    r := h;
    while |r| > 0
      invariant DrainInvariant(h, t, out, r)
      decreases |r|
    {
      var rest, register := HeapPop(r);
      if register.time < t {
        DrainTakes(h, t, out, r, rest, register);
        out := out + [register];
        r := rest;
      } else {
        var pushed := HeapPush(rest, register);
        DrainStops(r, rest, register, t, pushed);
        r := pushed;
        break;
      }
    }
    DrainEnd(h, t, out, r);
  }

  /** The state in which the drain loop ends yields every promise of
      `PopBeforeTime`. */
  lemma DrainEnd(h: ScheduleList, t: int, out: ScheduleList, r: ScheduleList)
    requires multiset(out) + multiset(r) == multiset(h)
    requires forall e :: e in out ==> e.time < t
    requires forall e :: e in r ==> t <= e.time
    ensures multiset(out) == multiset(Before(h, t))
    ensures multiset(r) == multiset(NotBefore(h, t))
    ensures forall e :: e in h && e.time == t ==> e in r && e !in out
  {
    SplitIsUnique(h, t, out, r);
    forall e | e in h && e.time == t
      ensures e in r && e !in out
    {
      assert e in multiset(h);
    }
  }

  /** One delivery attempt made by a tick: the entry handed to the mailer
      and the mailer's error, if any. */
  datatype Attempt = Attempt(entry: ScheduledMovie, error: Option<string>)

  /** The mailer, `SendScheduledMovie(userName, email, movieId)`: an error or
      nothing. */
  type Mailer = (string, string, int) -> Option<string>

  /** What the mailer answers for one entry. */
  function Send(mail: Mailer, e: ScheduledMovie): Option<string> {
    mail(e.userName, e.email, e.movieId)
  }

  /** The errors a tick logs: one per failed attempt, in attempt order. */
  function Logged(attempts: seq<Attempt>): (errs: seq<string>)
    ensures |errs| <= |attempts|
  {
    if |attempts| == 0 then []
    else
      var rest := Logged(attempts[1..]);
      match attempts[0].error
      case Some(err) => [err] + rest
      case None => rest
  }

  /** One tick of `schedule` at the sampled time `now`: drain the entries due
      strictly before `now`, then attempt delivery of each drained entry
      once. A failed delivery is only logged; nothing is put back. */
  method Tick(h: ScheduleList, now: int, mail: Mailer)
    returns (r: ScheduleList, drained: ScheduleList, attempts: seq<Attempt>, log: seq<string>)
    requires IsHeap(h)
    ensures IsHeap(r)
    ensures multiset(r) == multiset(NotBefore(h, now))
    ensures multiset(drained) == multiset(Before(h, now))
    ensures Sorted(drained)
    ensures |attempts| == |drained|
    ensures forall i :: 0 <= i < |drained| ==> attempts[i] == Attempt(drained[i], Send(mail, drained[i]))
    ensures log == Logged(attempts)
  {
    drained, r := PopBeforeTime(h, now);
    attempts := [];
    var i := 0;
    while i < |drained|
      invariant i <= |drained| && |attempts| == i
      invariant forall k :: 0 <= k < i ==> attempts[k] == Attempt(drained[k], Send(mail, drained[k]))
    {
      attempts := attempts + [Attempt(drained[i], Send(mail, drained[i]))];
      i := i + 1;
    }
    log := Logged(attempts);
  }

  /** What reaches the queue over time: a registration from the HTTP handler
      (`heap.Push` under the lock), or a tick at a sampled time. */
  datatype Event = Register(entry: ScheduledMovie) | TickAt(now: int)

  /** The entries registered by a sequence of events. */
  function Registered(events: seq<Event>): (es: ScheduleList)
    ensures |es| <= |events|
  {
    if |events| == 0 then []
    else
      var rest := Registered(events[1..]);
      match events[0]
      case Register(e) => [e] + rest
      case TickAt(_) => rest
  }

  /** Runs a sequence of events against the queue, starting from `h`. Every
      entry ever queued is, at the end, either still queued or was handed to
      the mailer, and never both or twice; the heap order always holds. */
  method Run(h: ScheduleList, events: seq<Event>, mail: Mailer)
    returns (r: ScheduleList, dispatched: ScheduleList)
    requires IsHeap(h)
    ensures IsHeap(r)
    ensures multiset(r) + multiset(dispatched) == multiset(h) + multiset(Registered(events))
  {
    r := h;
    dispatched := [];
    var i := 0;
    while i < |events|
      invariant 0 <= i <= |events|
      invariant IsHeap(r)
      invariant multiset(r) + multiset(dispatched) + multiset(Registered(events[i..])) ==
                multiset(h) + multiset(Registered(events))
      decreases |events| - i
    {
      assert events[i..] == [events[i]] + events[i + 1..];
      match events[i] {
        case Register(e) =>
          r := HeapPush(r, e);
        case TickAt(now) =>
          var drained, attempts, log;
          BeforeNotBeforePartition(r, now);
          r, drained, attempts, log := Tick(r, now, mail);
          dispatched := dispatched + drained;
      }
      i := i + 1;
    }
    assert events[i..] == [];
  }

  /** `schedule`: the queue is first put in heap order with `heap.Init`,
      then serves the events. Whatever list it starts from, every entry is
      at the end still queued or dispatched, exactly once. */
  method Schedule(h: ScheduleList, events: seq<Event>, mail: Mailer)
    returns (r: ScheduleList, dispatched: ScheduleList)
    ensures IsHeap(r)
    ensures multiset(r) + multiset(dispatched) == multiset(h) + multiset(Registered(events))
  {
    var start := Init(h);
    r, dispatched := Run(start, events, mail);
  }
}

=== FILE: strconv.dfy ===
/** Decimal conversions of Go's `strconv` package as this program uses them:
    `Itoa` renders an `int`, `Atoi` parses one. Go's `int` is taken to be
    64 bits wide, so `Atoi` rejects values outside the signed 64-bit range. */
module Strconv {
  import opened Wrappers

  const MinInt64: int := -0x8000_0000_0000_0000
  const MaxInt64: int := 0x7FFF_FFFF_FFFF_FFFF

  /** The values a Go `int` can hold. */
  predicate InInt64(n: int) {
    MinInt64 <= n <= MaxInt64
  }

  /** Why `Atoi` rejected its input. */
  datatype NumError = ErrSyntax | ErrRange

  predicate IsDigit(c: char) {
    '0' <= c <= '9'
  }

  predicate AllDigits(s: string) {
    forall i :: 0 <= i < |s| ==> IsDigit(s[i])
  }

  function DigitValue(c: char): nat
    requires IsDigit(c)
  {
    c as int - '0' as int
  }

  function DigitChar(d: nat): (c: char)
    requires d < 10
    ensures IsDigit(c) && DigitValue(c) == d
  {
    ('0' as int + d) as char
  }

  /** The value of a string of decimal digits, most significant digit first. */
  function DigitsValue(s: string): nat
    requires AllDigits(s)
  {
    if |s| == 0 then 0 else DigitsValue(s[..|s| - 1]) * 10 + DigitValue(s[|s| - 1])
  }

  /** The decimal image of a natural number: at least one digit, and no
      leading zero unless the number is zero itself. */
  function NatDigits(n: nat): (s: string)
    ensures |s| > 0 && AllDigits(s)
    ensures s[0] == '0' ==> n == 0 && |s| == 1
    ensures DigitsValue(s) == n
  {
    if n < 10 then [DigitChar(n)]
    else
      var front := NatDigits(n / 10);
      var s := front + [DigitChar(n % 10)];
      assert s[..|s| - 1] == front;
      s
  }

  /** `strconv.Itoa`: a leading '-' for negative numbers, then the digits. */
  function Itoa(n: int): (s: string)
    ensures |s| > 0
    ensures s[0] == '-' <==> n < 0
    ensures n >= 0 ==> IsDigit(s[0])
    ensures forall i :: 0 < i < |s| ==> IsDigit(s[i])
  {
    if n < 0 then "-" + NatDigits(-n) else NatDigits(n)
  }

  /** `strconv.Atoi`: an optional '+' or '-' sign followed by one or more
      ASCII digits, whose value must fit in a Go `int`. Anything else,
      including the empty string, is an error. */
  function Atoi(s: string): (r: Result<int, NumError>)
    ensures r.Success? ==> InInt64(r.value)
    ensures r.Success? ==> |s| > 0 && (IsDigit(s[0]) || s[0] == '+' || s[0] == '-')
    ensures r.Success? && r.value < 0 ==> s[0] == '-'
    ensures r.Success? ==>
      || (AllDigits(s) && r.value == DigitsValue(s))
      || (&& |s| > 1 && (s[0] == '+' || s[0] == '-') && AllDigits(s[1..])
          && r.value == (if s[0] == '-' then -(DigitsValue(s[1..]) as int) else DigitsValue(s[1..])))
  {
    if |s| == 0 then Failure(ErrSyntax)
    else
      var body := if s[0] == '+' || s[0] == '-' then s[1..] else s;
      if |body| == 0 || !AllDigits(body) then Failure(ErrSyntax)
      else
        var v: int := if s[0] == '-' then -(DigitsValue(body) as int) else DigitsValue(body);
        if InInt64(v) then Success(v) else Failure(ErrRange)
  }

  /** Parsing what `Itoa` printed gives the number back, for every value a
      Go `int` can hold. */
  lemma AtoiItoa(n: int)
    requires InInt64(n)
    ensures Atoi(Itoa(n)) == Success(n)
  {
    var s := Itoa(n);
    if n < 0 {
      assert s[1..] == NatDigits(-n);
    } else {
      assert s == NatDigits(n);
    }
  }

  /** Every non-empty string of digits whose value fits in a Go `int` is
      accepted, leading zeros included, and parses to that value. */
  lemma AtoiDigits(s: string)
    requires |s| > 0 && AllDigits(s) && DigitsValue(s) <= MaxInt64
    ensures Atoi(s) == Success(DigitsValue(s))
  {
  }

  /** A '+' or '-' followed by a non-empty string of digits is accepted
      whenever the signed value fits in a Go `int`, so "-0" reads as 0 and
      "-9223372036854775808" as the least `int`. */
  lemma AtoiSigned(t: string)
    requires |t| > 1 && (t[0] == '+' || t[0] == '-') && AllDigits(t[1..])
    requires InInt64(if t[0] == '-' then -(DigitsValue(t[1..]) as int) else DigitsValue(t[1..]))
    ensures Atoi(t) == Success(if t[0] == '-' then -(DigitsValue(t[1..]) as int) else DigitsValue(t[1..]))
  {
  }
}

=== FILE: util.dfy ===
/** Request helpers of the web layer: pagination links, the page number
    read from a query string, the id at the end of a URL path, and the
    genre shown as "preferred" on the browse page. */
module Util {
  import opened Wrappers
  import opened Strconv

  /** A movie search result, reduced to its id and genre ids. */
  datatype MovieResult = MovieResult(id: int, genreIds: seq<int>)

  /** A page of a catalog list, reduced to the fields used here. */
  datatype List = List(id: int, page: int, totalPages: int, results: seq<MovieResult>)

  /** A list page with the numbers of its previous and next pages; 0 means
      there is no such page. */
  datatype ListPage = ListPage(list: List, prev: int, next: int)

  /** `paginate`: keeps the list as it is and links the neighbouring pages. */
  function Paginate(list: List): (lp: ListPage)
    ensures lp.list == list
    ensures lp.prev != 0 <==> list.page > 1
    ensures lp.prev != 0 ==> lp.prev == list.page - 1
    ensures list.page < list.totalPages ==> lp.next == list.page + 1
    ensures list.page >= list.totalPages ==> lp.next == 0
  {
    var prev := if list.page > 1 then list.page - 1 else 0;
    var next := if list.page < list.totalPages then list.page + 1 else 0;
    ListPage(list, prev, next)
  }

  /** For a page inside `[1, totalPages]` both links stay inside that range,
      the previous link exists exactly when this is not the first page and
      the next link exactly when this is not the last. */
  lemma PaginateLinksInRange(list: List)
    requires 1 <= list.page <= list.totalPages
    ensures var lp := Paginate(list);
      && (lp.prev != 0 <==> list.page != 1)
      && (lp.next != 0 <==> list.page != list.totalPages)
      && (lp.prev != 0 ==> 1 <= lp.prev < list.page)
      && (lp.next != 0 ==> list.page < lp.next <= list.totalPages)
  {
  }

  /** Following the next link and then the previous one leads back to the
      starting page, and the other way round. */
  lemma PaginateRoundTrip(list: List)
    requires 1 <= list.page <= list.totalPages
    ensures var n := Paginate(list).next;
      n != 0 ==> Paginate(list.(page := n)).prev == list.page
    ensures var p := Paginate(list).prev;
      p != 0 ==> Paginate(list.(page := p)).next == list.page
  {
  }

  /** Query parameters: every name maps to its values, in order. */
  type Values = map<string, seq<string>>

  /** `url.Values.Get`: the first value of the name, or "" if there is none. */
  function Get(params: Values, name: string): string {
    if name in params && |params[name]| > 0 then params[name][0] else ""
  }

  /** Setting a name's values makes `Get` return the first of them, and
      leaves every other name's answer alone; a name that is missing or
      has no values reads as "". */
  lemma GetFirstValue(params: Values, name: string, v: string, more: seq<string>, other: string)
    ensures Get(params[name := [v] + more], name) == v
    ensures other != name ==> Get(params[name := [v] + more], other) == Get(params, other)
    ensures name !in params ==> Get(params, name) == ""
    ensures Get(params[name := []], name) == ""
  {
  }

  /** `pageParam`: the parameter parsed as a decimal `int`, or 1 when it is
      missing or is not one. No clamping: 0 and negative pages pass. */
  function PageParam(params: Values, name: string): (page: int)
    ensures Atoi(Get(params, name)).Success? ==> page == Atoi(Get(params, name)).value
    ensures Atoi(Get(params, name)).Failure? ==> page == 1
  {
    match Atoi(Get(params, name))
    case Success(v) => v
    case Failure(_) => 1
  }

  /** Whatever page a link printed comes back from the query, 0 and
      negative pages included; a missing parameter reads as page 1. */
  lemma PageParamRoundTrip(params: Values, name: string, page: int, more: seq<string>)
    requires InInt64(page)
    ensures PageParam(params[name := [Itoa(page)] + more], name) == page
    ensures name !in params ==> PageParam(params, name) == 1
  {
    AtoiItoa(page);
    GetFirstValue(params, name, Itoa(page), more, name);
  }

  /** `idFromPath`: drops the first `|path|` characters of the URL path,
      without comparing them with `path`, and parses the rest. Go slices
      `r.URL.Path[len(path):]`, which panics on a shorter URL path. */
  function IdFromPath(path: string, urlPath: string): (r: Result<int, NumError>)
    requires |path| <= |urlPath|
    ensures r.Success? ==> InInt64(r.value)
    ensures |urlPath| == |path| ==> r == Failure(ErrSyntax)
    ensures r.Success? && r.value < 0 ==> urlPath[|path|] == '-'
  {
    Atoi(urlPath[|path|..])
  }

  /** A URL built as a route followed by an id yields that id. */
  lemma IdFromPathRoundTrip(path: string, id: int)
    requires InInt64(id)
    ensures IdFromPath(path, path + Itoa(id)) == Success(id)
  {
    assert (path + Itoa(id))[|path|..] == Itoa(id);
    AtoiItoa(id);
  }

  /** Only the length of the route matters: its characters are never read. */
  lemma IdFromPathIgnoresRouteText(path: string, other: string, urlPath: string)
    requires |path| == |other| <= |urlPath|
    ensures IdFromPath(path, urlPath) == IdFromPath(other, urlPath)
  {
  }

  /** Every genre id of every result, results in order. */
  function AllGenres(rs: seq<MovieResult>): seq<int> {
    if |rs| == 0 then [] else rs[0].genreIds + AllGenres(rs[1..])
  }

  /** The `genres` map of `preferredGenre`: a key for every id that occurs,
      mapped to a positive count (`genres[id]++` starts a missing id at 0);
      `TallyCountsOccurrences` shows the count is the number of
      occurrences. */
  function Tally(ids: seq<int>): (m: map<int, nat>)
    ensures forall g :: g in m <==> g in ids
    ensures forall g :: g in m ==> m[g] > 0
  {
    if |ids| == 0 then map[]
    else
      var front := ids[..|ids| - 1];
      var g := ids[|ids| - 1];
      var m := Tally(front);
      assert ids == front + [g];
      m[g := (if g in m then m[g] else 0) + 1]
  }

  /** The tally maps every id to its number of occurrences. */
  lemma {:induction false} TallyCountsOccurrences(ids: seq<int>)
    ensures forall g :: g in Tally(ids) ==> Tally(ids)[g] == multiset(ids)[g]
    decreases |ids|
  {
    if |ids| > 0 {
      var front := ids[..|ids| - 1];
      TallyCountsOccurrences(front);
      assert ids == front + [ids[|ids| - 1]];
    }
  }

  /** Every id at a position of `ids` is a key of its tally. */
  lemma InTally(ids: seq<int>, i: nat)
    requires i < |ids|
    ensures ids[i] in Tally(ids)
  {
    assert ids[i] in ids;
  }

  /** The counts of the genres in both lists, watch list first. */
  function GenreCounts(watch: seq<MovieResult>, watched: seq<MovieResult>): map<int, nat> {
    Tally(AllGenres(watch) + AllGenres(watched))
  }

  /** `order` is an order Go's `range` over the map `m` may produce: every
      key exactly once. Go leaves that order unspecified. */
  ghost predicate IsRangeOrder(order: seq<int>, m: map<int, nat>) {
    && (forall i :: 0 <= i < |order| ==> order[i] in m)
    && (forall g :: g in m ==> g in order)
    && (forall i, j :: 0 <= i < j < |order| ==> order[i] != order[j])
  }

  /** When some id occurs, the iteration over its tally visits a key. */
  lemma TallyOrderNonEmpty(ids: seq<int>, order: seq<int>)
    requires IsRangeOrder(order, Tally(ids))
    ensures |ids| > 0 ==> |order| > 0
  {
    if |ids| > 0 {
      InTally(ids, 0);
    }
  }

  /** The selection loop of `preferredGenre` as written: the key is replaced
      whenever a count exceeds `val`, but `val` itself is never updated. */
  function PickAsWritten(m: map<int, nat>, order: seq<int>, key: int, val: int): (r: int)
    requires forall i :: 0 <= i < |order| ==> order[i] in m
    ensures r == key || r in order
    ensures |order| > 0 && (forall g :: g in order ==> m[g] > val) ==> r == order[|order| - 1]
  {
    if |order| == 0 then key
    else
      PickAsWritten(m, order[1..], if m[order[0]] > val then order[0] else key, val)
  }

  /** `preferredGenre` as written: 0 when neither list has a genre, and
      otherwise the genre Go's map iteration happens to visit last, since
      every count exceeds the never-updated 0. */
  function PreferredGenre(watch: seq<MovieResult>, watched: seq<MovieResult>, order: seq<int>): (g: int)
    requires IsRangeOrder(order, GenreCounts(watch, watched))
    ensures |AllGenres(watch) + AllGenres(watched)| == 0 ==> g == 0
    ensures |AllGenres(watch) + AllGenres(watched)| > 0 ==> g in GenreCounts(watch, watched)
    ensures |order| > 0 ==> g == order[|order| - 1]
  {
    TallyOrderNonEmpty(AllGenres(watch) + AllGenres(watched), order);
    PickAsWritten(GenreCounts(watch, watched), order, 0, 0)
  }

  /** The selection loop with `val` kept up to date: a strictly larger count
      replaces the candidate, so the first most frequent key in `order`
      wins. Returns the chosen key and its count. */
  function PickMostFrequent(m: map<int, nat>, order: seq<int>, key: int, val: int): (r: (int, int))
    requires forall i :: 0 <= i < |order| ==> order[i] in m
    ensures r.1 >= val
    ensures r.1 == val ==> r.0 == key
    ensures r.1 > val ==> r.0 in order && r.0 in m && m[r.0] == r.1
    ensures forall g :: g in order ==> m[g] <= r.1
  {
    if |order| == 0 then (key, val)
    else
      if m[order[0]] > val then PickMostFrequent(m, order[1..], order[0], m[order[0]])
    else PickMostFrequent(m, order[1..], key, val)
  }

  /** `preferredGenre` as its documentation describes it: 0 when there is no
      genre, otherwise a genre no other genre outnumbers. */
  function MostFrequentGenre(watch: seq<MovieResult>, watched: seq<MovieResult>, order: seq<int>): (g: int)
    requires IsRangeOrder(order, GenreCounts(watch, watched))
    ensures |AllGenres(watch) + AllGenres(watched)| == 0 ==> g == 0
    ensures |AllGenres(watch) + AllGenres(watched)| > 0 ==> g in GenreCounts(watch, watched)
    ensures |AllGenres(watch) + AllGenres(watched)| > 0 ==>
      forall h :: h in GenreCounts(watch, watched) ==> GenreCounts(watch, watched)[h] <= GenreCounts(watch, watched)[g]
  {
    var m := GenreCounts(watch, watched);
    TallyOrderNonEmpty(AllGenres(watch) + AllGenres(watched), order);
    PickMostFrequent(m, order, 0, 0).0
  }

  /** The watch list of the counterexample: one movie of genres 28 and 12. */
  const SampleWatch: seq<MovieResult> := [MovieResult(1, [28, 12])]

  /** The watched list of the counterexample: one movie of genre 28. */
  const SampleWatched: seq<MovieResult> := [MovieResult(2, [28])]

  /** The two functions part ways: genre 28 occurs twice and genre 12 once,
      yet a map iteration visiting 28 first makes `preferredGenre` return
      12, while the corrected selection returns 28. */
  lemma PreferredGenreIgnoresFrequency()
    ensures IsRangeOrder([28, 12], GenreCounts(SampleWatch, SampleWatched))
    ensures multiset(AllGenres(SampleWatch) + AllGenres(SampleWatched))[28] == 2
    ensures multiset(AllGenres(SampleWatch) + AllGenres(SampleWatched))[12] == 1
    ensures PreferredGenre(SampleWatch, SampleWatched, [28, 12]) == 12
    ensures MostFrequentGenre(SampleWatch, SampleWatched, [28, 12]) == 28
  {
    var ids := AllGenres(SampleWatch) + AllGenres(SampleWatched);
    assert AllGenres(SampleWatch) == [28, 12];
    assert AllGenres(SampleWatched) == [28];
    assert ids == [28, 12, 28];
    assert multiset(ids)[28] == 2;
    assert multiset(ids)[12] == 1;
    TallyCountsOccurrences(ids);
    assert GenreCounts(SampleWatch, SampleWatched)[28] == 2;
    assert GenreCounts(SampleWatch, SampleWatched)[12] == 1;
  }
}

=== FILE: wrappers.dfy ===
/** Wrappers shared by the model: Go's `(value, error)`
    pairs become `Result`, and values that may be absent become `Option`. */
module Wrappers {

  datatype Option<+T> = None | Some(value: T)

  datatype Result<+T, +E> = Success(value: T) | Failure(error: E)
}
